=== FILE: README.md ===
# Little Search Engine — keyword index and two-keyword search

A Dafny model of the core of `LittleSearchEngine`:

- It builds an index that maps each keyword to the documents it occurs in, with the number of occurrences in each.
- It answers "kw1 or kw2" queries with the five most relevant document names.

The modules follow the Java class:

- `Wrappers`: `Option`, standing for a Java `null` result.
- `Occurrences`: the `Occurrence` record (document name, frequency). It also defines non-increasing frequency order (`Sorted`) and "insert one element, move nothing else" (`IsInsertion`).
- `KeyWords`: `getKeyWord`. A token loses every trailing non-letter. It is rejected if a non-letter is left, lower-cased otherwise, and rejected again if it is a noise word. A one-character token is returned as it is unless it is a noise word.
- `Loader`: the counting loop of `loadKeyWords`, as a pure function over the document's tokens. It returns, for every keyword, an occurrence in this document with the number of tokens that normalise to it.
- `Insertion`: `insertLastOccurrence`. The last entry of a list is moved to its place among the others (already sorted) by a binary search. The result also carries the trace of probed midpoints. The method has a `while` loop with the invariants of the search.
- `Indexer`: `mergeKeyWords`, which folds one document's keywords into the index, and `makeIndex`, which is a fold of loading and merging over the documents.
- `Search`: `top5search`, a two-pointer merge of the two keywords' lists. It reports at most five distinct names, and when the two current heads have equal frequency it takes `kw1`'s first.
- `EndToEnd`: worked examples. Two tokenised documents are indexed with `MakeIndex`, and the query is then evaluated on the resulting index. A second query shows how ties are broken.

The model follows the code, also where it departs from its doc comments or from what the program is meant to do:

- Every trailing non-letter is stripped, not only the six punctuation marks the comment of `getKeyWord` lists.
- A token of two or more characters with no letter at all gives the empty keyword `""`, not a rejection.
- A one-character token is checked against the noise words as it is, without lower-casing.
- The probe trace is `None` both for lists of at most one entry and whenever the search probes exactly one midpoint.
- The doc comment of `top5search` promises that equal frequencies are always broken in favour of `kw1`. The code keeps that order only within one tie round. A later `kw1` entry of the same frequency comes after the `kw2` head that tied with the earlier one (`EndToEnd.TieRunExample`).
- In a tie round of the query, the second list's pointer advances even when the report is already full after the first list's entry.
- Nothing in the code keeps one document from appearing twice in a keyword's list (a document named twice in the list of documents is indexed twice). So no such invariant is claimed.

## Model

| member | source | states |
|---|---|---|
| KeyWords.StemLength | src/search/LittleSearchEngine.java:228-236 | the backwards scan stops one past the last letter (or at 0), and everything after that point is a non-letter |
| KeyWords.StemLengthIsStem | src/search/LittleSearchEngine.java:228-239 | the prefix kept by the scan is the stem: a prefix followed only by non-letters and ending in a letter unless empty |
| KeyWords.GetKeyWord | src/search/LittleSearchEngine.java:213-263 | a one-character token is kept exactly when it is not a noise word. A longer token gives a keyword exactly when its stem is all letters and the lower-cased stem is not a noise word, and the keyword is that lower-cased stem. A keyword is never a noise word |
| KeyWords.LowerWordIsKeyWord | src/search/LittleSearchEngine.java:239-258 | a non-noise word of lower-case letters is its own keyword |
| KeyWords.KeyWordIdempotent | src/search/LittleSearchEngine.java:213-263 | normalising a non-empty keyword again returns the same keyword |
| KeyWords.KeyWordIgnoresCase | src/search/LittleSearchEngine.java:239-241 | tokens of two or more characters that differ only in case give the same result |
| KeyWords.TrailingPunctuationExample | src/search/LittleSearchEngine.java:228-258 | `"end..."` gives `"end"`, and `"end"` gives `"end"` |
| KeyWords.InteriorApostropheExample | src/search/LittleSearchEngine.java:243-253 | `"can't"` is rejected because a non-letter is left inside |
| KeyWords.CapitalisedExample | src/search/LittleSearchEngine.java:239-261 | `"Fish."` gives `"fish"`, and is rejected when `"fish"` is a noise word |
| KeyWords.SingleCharacterExample | src/search/LittleSearchEngine.java:217-226 | `"A"` is kept when `"a"` is a noise word, `"7"` is kept, and `"a"` is rejected when it is a noise word |
| KeyWords.NoLetterExample | src/search/LittleSearchEngine.java:228-257 | `"?!"` gives the empty keyword |
| Loader.Tally | src/search/LittleSearchEngine.java:132-142 | a keyword is in the map exactly when some token gave it, with an occurrence in this document counting those tokens |
| Loader.LoadKeyWords | src/search/LittleSearchEngine.java:122-143 | the keys are exactly the non-null keywords of the tokens. Each maps to an occurrence in `docFile` whose frequency is the number of tokens that normalise to it, so it is at least one |
| Insertion.BinarySearch | src/search/LittleSearchEngine.java:286-313 | the final midpoint lies in `0 .. n-2`. Placing the new entry after it (when less frequent) or at it puts it at the front, after a more frequent entry, or just before an entry of equal frequency, and never before a more frequent one. It therefore lands between a more frequent or equal neighbour and a less frequent or equal one only when the first n-1 entries are sorted (`InsertAtSearchPlace`). The trace starts at `(n-2)/2`, stays in range, and has one probe exactly in the `SingleProbe` cases |
| Insertion.InsertAtSearchPlace | src/search/LittleSearchEngine.java:316-326 | the placement moves only the last entry, keeps the multiset, and yields a sorted list when the rest was sorted |
| Insertion.InsertLastOccurrence | src/search/LittleSearchEngine.java:277-343 | a list of at most one entry is returned unchanged with no trace. Otherwise the result is the first n-1 entries with the last put in at one position, it is a permutation of the input, and it is sorted when the first n-1 were. The trace is absent exactly when one midpoint was probed; otherwise it has at least two probes, all in `0 .. n-2` |
| Indexer.MergeKeyWords | src/search/LittleSearchEngine.java:172-194 | the keys become the union; untouched keywords keep their lists; a new keyword gets a one-entry list; an existing list gains exactly that keyword's occurrence and stays sorted |
| Indexer.MergeStep | src/search/LittleSearchEngine.java:93-97 | loading and merging one more document keeps the index equal to the index of the documents seen so far |
| Indexer.MakeIndex | src/search/LittleSearchEngine.java:82-99 | the noise words are those listed. Every list is non-empty and sorted, a keyword has a list exactly when some document gives it, and the list holds one occurrence per such document, with its count (as a multiset) |
| Search.AddIfNew | src/search/LittleSearchEngine.java:405-409 | a document already reported leaves the picks unchanged, a new one is appended at the end; distinct names stay distinct |
| Search.TakeFirst | src/search/LittleSearchEngine.java:414-433 | taking the head of kw1's list advances only its pointer, adds at most that entry, and leaves its document reported |
| Search.TakeSecond | src/search/LittleSearchEngine.java:403-443 | taking the head of kw2's list advances only its pointer, adds at most that entry, and leaves its document reported |
| Search.AddBoth | src/search/LittleSearchEngine.java:445-462 | the tie round adds at most the two heads, never beyond five entries. kw1's head is reported afterwards, and it is the first new entry when its document was new. kw2's head is reported too whenever kw1's left room |
| Search.Step | src/search/LittleSearchEngine.java:396-469 | one loop round advances at least one pointer, extends the report with entries of the two lists only, and keeps names distinct and the report within five |
| Search.MergeTop | src/search/LittleSearchEngine.java:396-469 | the whole loop reports at most five occurrences with distinct names, all from the two lists, extending what was reported |
| Search.StepTieBreak | src/search/LittleSearchEngine.java:445-462 | on equal head frequencies with new, different documents, kw1's head is reported and then kw2's, or only kw1's when one place is left |
| Search.MergeTopSorted | src/search/LittleSearchEngine.java:424-466 | with sorted lists, the reported occurrences come in non-increasing frequency |
| Search.MergeTopComplete | src/search/LittleSearchEngine.java:396-469 | when fewer than five are reported, every document of both lists is reported |
| Search.MergeTopBest | src/search/LittleSearchEngine.java:396-469 | with sorted lists, an occurrence whose document is not reported was left out of a full report and is no more frequent than its last entry |
| Search.MergeFromStart | src/search/LittleSearchEngine.java:391-394 | from the start the report is bounded, distinct, drawn from the two lists, and empty exactly when both lists are |
| Search.Top5Picks | src/search/LittleSearchEngine.java:372-388 | a missing keyword counts as an empty list; the picks are empty exactly when both lists are |
| Search.Top5Search | src/search/LittleSearchEngine.java:367-476 | `None` when neither keyword is indexed, and exactly when both lists are empty. Otherwise one to five distinct names, each a document of kw1's or kw2's list |
| Search.Top5Ordered | src/search/LittleSearchEngine.java:353-365 | with sorted lists, the names come in non-increasing order of the frequencies that contributed them |
| Search.Top5Complete | src/search/LittleSearchEngine.java:396-469 | a report of fewer than five names contains every document of both lists |
| Search.Top5Best | src/search/LittleSearchEngine.java:353-365 | with sorted lists, every document of either list is reported, or the report is full and it is no more frequent than the last reported one |
| Search.Top5TieBreak | src/search/LittleSearchEngine.java:353-358 | when the two heads have equal frequency and different documents, kw1's document is reported first and kw2's second |
| EndToEnd.CountsOfA | src/search/LittleSearchEngine.java:122-143 | the tokens `"Dog" "dog" "CAT."` count "dog" twice and "cat" once, through the capitalised and the punctuated token |
| EndToEnd.DogCatQuery | src/search/LittleSearchEngine.java:367-476 | any index where `dog` lists A twice and B once and `cat` lists B twice and A once answers the query with A then B |
| EndToEnd.TieRunExample | src/search/LittleSearchEngine.java:353-358 | with `k1` listing X and Y at frequency 3 and `k2` listing Z at frequency 3, the report is X, Z, Y: Y comes after the equally frequent Z, against the doc comment's promise |
| EndToEnd.DogCatEndToEnd | src/search/LittleSearchEngine.java:82-99 | indexing A (`Dog dog CAT.`) and B (`cat cat dog`) with noise word "the" gives `dog: (A,2),(B,1)` and `cat: (B,2),(A,1)`, and `Top5Search` on that index for "dog" or "cat" then reports A before B |

## Left out

- File reading: the `Scanner`/`File` reading of the noise-word file and the document list in `makeIndex` (lines 85-97), and the `File.exists` check and `FileNotFoundException` of `loadKeyWords` (lines 112-119). Tokens, documents and noise words are given as values.
- `HashMap` capacities, load factors and iteration order: the model uses Dafny maps. `mergeKeyWords` visits keys in an arbitrary order, which is harmless because each key touches only its own list.
- `Character.isLetter` and `String.toLowerCase` are modelled as ASCII letters and a per-character, length-preserving ASCII lower-case map. Under that assumption, the code's check of `word.charAt(i)` over the length of the lower-cased prefix is the same as checking the prefix.
- Java `int` overflow: frequency counts and the binary search's midpoint sum `(max + min)/2` (lines 291 and 295) are unbounded. For a list of more than about 2^30 entries the Java sum wraps negative and `occs.get(mid)` throws; the model does not reproduce that failure.
- Object identity: occurrences are mutated in place while counting and shared by reference with the index. The model uses immutable values.
- `Occurrence.toString`: formatting only.
- KeyWords.GetKeyWord: requires a non-empty token. The Java code would fail on `charAt(-1)` for `""`, and a whitespace scanner never yields an empty token.
- Insertion.InsertLastOccurrence: does not state that the probed midpoints are pairwise distinct, nor their full sequence. Only the first probe, the range and the one-probe cases are stated.
- Insertion.BinarySearch: states the same facts about the trace as `InsertLastOccurrence` and no more.
- Indexer.MakeIndex: states each list's contents as a multiset, not the exact order of entries with equal frequencies. That order depends on where the binary search stops.
- Search.Top5TieBreak: states the tie-break only for the heads of the two lists, because the doc comment's global promise does not hold for the code (see `EndToEnd.TieRunExample`). Each later tie round is covered by `Search.StepTieBreak`.
- Search.Top5Search: not modifying the index is implicit, since it is a pure function of the index.
- Indexer.MakeIndex: models one call on a freshly constructed engine, with an empty index and no noise words. The Java method adds into whatever the object already holds (lines 85-96).
- `top5search` does not normalise its keywords: `Top5Search` looks them up as given.

=== FILE: endtoend.dfy ===
/** The whole pipeline on two small documents: index them, then query. */
module EndToEnd {
  import opened Wrappers
  import opened Occurrences
  import opened KeyWords
  import opened Loader
  import opened Indexer
  import opened Search

  const Noise: set<string> := {"the"}
  const DocA := Document("A", ["Dog", "dog", "CAT."])
  const DocB := Document("B", ["cat", "cat", "dog"])

  lemma LowerDogCat()
    ensures GetKeyWord("dog", Noise) == Some("dog")
    ensures GetKeyWord("cat", Noise) == Some("cat")
  {
    LowerWordIsKeyWord("dog", Noise);
    LowerWordIsKeyWord("cat", Noise);
  }

  lemma CapitalDog()
    ensures GetKeyWord("Dog", Noise) == Some("dog")
  {
    LowerWordIsKeyWord("dog", Noise);
    KeyWordIgnoresCase("Dog", Noise);
    assert ToLower("Dog") == "dog";
  }

  lemma CapitalCatDot()
    ensures GetKeyWord("CAT.", Noise) == Some("cat")
  {
    assert "CAT."[..3] == "CAT";
    assert StemLength("CAT.") == 3;
    assert ToLower("CAT") == "cat";
  }

  /** Three keywords of which the first two agree. */
  lemma CountThree(ks: seq<Option<string>>, x: Option<string>, y: Option<string>)
    requires ks == [x, x, y] && x != y
    ensures multiset(ks)[x] == 2 && multiset(ks)[y] == 1
  {
    assert multiset(ks) == multiset{x, x, y};
  }

  /** The keywords of a three-token document, given those of its tokens. */
  lemma NormaliseThree(tokens: seq<string>, noise: set<string>, kx: Option<string>, ky: Option<string>,
                       kz: Option<string>)
    requires |tokens| == 3 && WellFormedTokens(tokens)
    requires GetKeyWord(tokens[0], noise) == kx
    requires GetKeyWord(tokens[1], noise) == ky
    requires GetKeyWord(tokens[2], noise) == kz
    ensures Normalise(tokens, noise) == [kx, ky, kz]
  {
  }

  lemma KeyWordsOfA()
    ensures WellFormedTokens(DocA.tokens)
    ensures Normalise(DocA.tokens, Noise) == [Some("dog"), Some("dog"), Some("cat")]
  {
    var t := DocA.tokens;
    assert t[0] == "Dog" && t[1] == "dog" && t[2] == "CAT.";
    LowerDogCat();
    CapitalDog();
    CapitalCatDot();
    NormaliseThree(t, Noise, Some("dog"), Some("dog"), Some("cat"));
  }

  /** Document A holds "dog" twice and "cat" once. */
  lemma CountsOfA()
    ensures WellFormedTokens(DocA.tokens)
    ensures KeyWordCount(DocA.tokens, Noise, "dog") == 2 && KeyWordCount(DocA.tokens, Noise, "cat") == 1
  {
    KeyWordsOfA();
    CountThree(Normalise(DocA.tokens, Noise), Some("dog"), Some("cat"));
  }

  /** Document B holds "cat" twice and "dog" once. */
  lemma CountsOfB()
    ensures WellFormedTokens(DocB.tokens)
    ensures KeyWordCount(DocB.tokens, Noise, "dog") == 1 && KeyWordCount(DocB.tokens, Noise, "cat") == 2
  {
    LowerDogCat();
    NormaliseThree(DocB.tokens, Noise, Some("cat"), Some("cat"), Some("dog"));
    CountThree(Normalise(DocB.tokens, Noise), Some("cat"), Some("dog"));
  }

  /** The expected list of a keyword over two documents, in document order. */
  lemma ExpectedOfTwo(a: Document, b: Document, noise: set<string>, k: string)
    requires WellFormedTokens(a.tokens) && WellFormedTokens(b.tokens)
    ensures WellFormedDocuments([a, b])
    ensures var ca, cb := KeyWordCount(a.tokens, noise, k), KeyWordCount(b.tokens, noise, k);
      ExpectedOccurrences([a, b], noise, k) ==
        (if ca > 0 then [Occurrence(a.name, ca)] else []) + (if cb > 0 then [Occurrence(b.name, cb)] else [])
  {
    assert WellFormedDocuments([]);
    assert [] + [a] == [a] && [a] + [b] == [a, b];
    ExpectedStep([], a, noise, k);
    ExpectedStep([a], b, noise, k);
  }

  /** The expected lists of the two keywords, in document order. */
  lemma DogCatExpected()
    ensures WellFormedDocuments([DocA, DocB])
    ensures ExpectedOccurrences([DocA, DocB], Noise, "dog") == [Occurrence("A", 2), Occurrence("B", 1)]
    ensures ExpectedOccurrences([DocA, DocB], Noise, "cat") == [Occurrence("A", 1), Occurrence("B", 2)]
  {
    CountsOfA();
    CountsOfB();
    ExpectedOfTwo(DocA, DocB, Noise, "dog");
    ExpectedOfTwo(DocA, DocB, Noise, "cat");
  }

  /** What an index of `docs` says about one keyword whose expected list is known. */
  lemma KeyOfIndex(docs: seq<Document>, noise: set<string>, index: Index, k: string,
                   expected: seq<Occurrence>)
    requires WellFormedDocuments(docs) && IndexOf(docs, noise, index)
    requires ExpectedOccurrences(docs, noise, k) == expected && |expected| > 0
    ensures k in index && Sorted(index[k]) && multiset(index[k]) == multiset(expected)
  {
    assert KeyIndexed(docs, noise, index, k);
  }

  /** An index whose "dog" and "cat" lists are sorted and hold the expected
      occurrences has exactly the lists `Dog` and `Cat`. */
  lemma ListsOfIndex(index: Index)
    requires "dog" in index && Sorted(index["dog"])
    requires multiset(index["dog"]) == multiset([Occurrence("A", 2), Occurrence("B", 1)])
    requires "cat" in index && Sorted(index["cat"])
    requires multiset(index["cat"]) == multiset([Occurrence("A", 1), Occurrence("B", 2)])
    ensures index["dog"] == Dog && index["cat"] == Cat
  {
    SortedPair(index["dog"], Occurrence("A", 2), Occurrence("B", 1));
    assert multiset([Occurrence("A", 1), Occurrence("B", 2)]) == multiset([Occurrence("B", 2), Occurrence("A", 1)]);
    SortedPair(index["cat"], Occurrence("B", 2), Occurrence("A", 1));
  }

  /** The lists of the example below: "dog" occurs twice in A and once in B, "cat"
      twice in B and once in A. */
  const Dog := [Occurrence("A", 2), Occurrence("B", 1)]
  const Cat := [Occurrence("B", 2), Occurrence("A", 1)]
  const Both := [Occurrence("A", 2), Occurrence("B", 2)]

  /** The heads tie at frequency 2: A is reported, then B. */
  lemma DogCatFirstRound()
    ensures Step(Dog, Cat, Start) == Cursor(1, 1, Both)
  {
    assert Documents([]) == [];
    assert AddIfNew([], Dog[0]) == [Dog[0]];
    assert Documents([Dog[0]]) == ["A"];
    assert AddIfNew([Dog[0]], Cat[0]) == Both;
  }

  /** The heads tie again at frequency 1, and both documents are already reported. */
  lemma DogCatSecondRound()
    ensures Step(Dog, Cat, Cursor(1, 1, Both)) == Cursor(2, 2, Both)
  {
    assert Documents(Both) == ["A", "B"];
    assert AddIfNew(Both, Dog[1]) == Both;
    assert AddIfNew(Both, Cat[1]) == Both;
  }

  lemma DogCatMerge()
    ensures MergeTop(Dog, Cat, Start) == Both
  {
    DogCatFirstRound();
    DogCatSecondRound();
    assert Done(Dog, Cat, Cursor(2, 2, Both));
  }

  /** A run of equal frequencies in kw1's list: the tie round reports X and then Z,
      and Y, as frequent as both, comes only after Z. */
  const Run := [Occurrence("X", 3), Occurrence("Y", 3)]
  const Single := [Occurrence("Z", 3)]

  lemma TieRunRounds()
    ensures Step(Run, Single, Start) == Cursor(1, 1, [Occurrence("X", 3), Occurrence("Z", 3)])
    ensures Step(Run, Single, Cursor(1, 1, [Occurrence("X", 3), Occurrence("Z", 3)]))
         == Cursor(2, 1, [Occurrence("X", 3), Occurrence("Z", 3), Occurrence("Y", 3)])
  {
    assert Documents([]) == [];
    assert AddIfNew([], Run[0]) == [Run[0]];
    assert Documents([Run[0]]) == ["X"];
    assert AddIfNew([Run[0]], Single[0]) == [Run[0], Single[0]];
    assert Documents([Run[0], Single[0]]) == ["X", "Z"];
    assert AddIfNew([Run[0], Single[0]], Run[1]) == [Run[0], Single[0], Run[1]];
  }

  lemma TieRunMerge()
    ensures MergeTop(Run, Single, Start) == [Occurrence("X", 3), Occurrence("Z", 3), Occurrence("Y", 3)]
  {
    TieRunRounds();
    var c2 := Cursor(2, 1, [Occurrence("X", 3), Occurrence("Z", 3), Occurrence("Y", 3)]);
    assert Done(Run, Single, c2);
    assert MergeTop(Run, Single, c2) == c2.picks;
  }

  /** The tie-break of `top5search` holds round by round, not over the whole report:
      Y, of kw1's list, is as frequent as Z, of kw2's list, and is reported after it. */
  lemma TieRunExample()
    ensures Top5Search(map["k1" := Run, "k2" := Single], "k1", "k2") == Some(["X", "Z", "Y"])
  {
    var index := map["k1" := Run, "k2" := Single];
    assert Lookup(index, "k1") == Run && Lookup(index, "k2") == Single;
    TieRunMerge();
    assert Documents([Occurrence("X", 3), Occurrence("Z", 3), Occurrence("Y", 3)]) == ["X", "Z", "Y"];
  }

  /** Any index with those two lists answers the query with A before B. */
  lemma DogCatQuery(index: Index)
    requires "dog" in index && index["dog"] == Dog
    requires "cat" in index && index["cat"] == Cat
    ensures Top5Search(index, "dog", "cat") == Some(["A", "B"])
  {
    assert Lookup(index, "dog") == Dog && Lookup(index, "cat") == Cat;
    DogCatMerge();
    assert Documents(Both) == ["A", "B"];
  }

  /** Indexing document A ("Dog dog CAT.") and document B ("cat cat dog") with noise
      word "the" gives the lists `dog: (A,2),(B,1)` and `cat: (B,2),(A,1)`, and the
      query for "dog" or "cat" reports A before B. */
  method DogCatEndToEnd() returns (engine: Engine, r: Option<seq<string>>)
    ensures "dog" in engine.keywordsIndex && engine.keywordsIndex["dog"] == Dog
    ensures "cat" in engine.keywordsIndex && engine.keywordsIndex["cat"] == Cat
    ensures r == Top5Search(engine.keywordsIndex, "dog", "cat") == Some(["A", "B"])
  {
    DogCatExpected();
    engine := MakeIndex(["the"], [DocA, DocB]);
    assert engine.noiseWords == Noise by {
      assert "the" in ["the"];
    }
    var docs, index := [DocA, DocB], engine.keywordsIndex;
    KeyOfIndex(docs, Noise, index, "dog", [Occurrence("A", 2), Occurrence("B", 1)]);
    KeyOfIndex(docs, Noise, index, "cat", [Occurrence("A", 1), Occurrence("B", 2)]);
    ListsOfIndex(index);
    r := Top5Search(engine.keywordsIndex, "dog", "cat");
    DogCatQuery(engine.keywordsIndex);
  }
}

=== FILE: indexer.dfy ===
/** Building the keyword index (`mergeKeyWords`, `makeIndex`). */
module Indexer {
  import opened Wrappers
  import opened Occurrences
  import opened Loader
  import opened Insertion

  type Index = map<string, seq<Occurrence>>

  /** The state of the search engine: the keyword index and the noise words. */
  datatype Engine = Engine(keywordsIndex: Index, noiseWords: set<string>)

  /** A document as the indexer sees it: its name and its tokens. */
  datatype Document = Document(name: string, tokens: seq<string>)

  /** Every list in the index is sorted and not empty. */
  predicate WellSortedIndex(index: Index)
  {
    forall k :: k in index ==> |index[k]| >= 1 && Sorted(index[k])
  }

  /** `merged` is `index` with the occurrences of `kws` for the keywords in `keys`
      folded in, and with every other list as it was. */
  ghost predicate MergedOn(index: Index, kws: map<string, Occurrence>, keys: set<string>, merged: Index)
    requires keys <= kws.Keys
  {
    && merged.Keys == index.Keys + keys
    && (forall k :: k in index && k !in keys ==> merged[k] == index[k])
    && (forall k :: k in keys && k !in index ==> merged[k] == [kws[k]])
    && (forall k :: k in keys && k in index ==>
          IsInsertion(index[k], kws[k], merged[k]) && (Sorted(index[k]) ==> Sorted(merged[k])))
  }

  lemma MergeOneKey(index: Index, kws: map<string, Occurrence>, keys: set<string>, merged: Index,
                    d: string, list: seq<Occurrence>)
    requires keys <= kws.Keys && d in kws && d !in keys
    requires MergedOn(index, kws, keys, merged)
    requires d !in index ==> list == [kws[d]]
    requires d in index ==> IsInsertion(index[d], kws[d], list) && (Sorted(index[d]) ==> Sorted(list))
    ensures MergedOn(index, kws, keys + {d}, merged[d := list])
  {
  }

  /** Folds one document's keyword occurrences into the index: a keyword already
      present gets the occurrence placed in its list by `InsertLastOccurrence`,
      a new keyword gets a list of that occurrence alone. */
  method MergeKeyWords(index: Index, kws: map<string, Occurrence>) returns (merged: Index)
    ensures merged.Keys == index.Keys + kws.Keys
    ensures forall k :: k in index && k !in kws ==> merged[k] == index[k]
    ensures forall k :: k in kws && k !in index ==> merged[k] == [kws[k]]
    ensures forall k :: k in kws && k in index ==> IsInsertion(index[k], kws[k], merged[k])
    ensures forall k :: k in kws && k in index && Sorted(index[k]) ==> Sorted(merged[k])
  {
    merged := index;
    var todo := kws.Keys;
    ghost var done: set<string> := {};
    while todo != {}
      invariant done <= kws.Keys && todo == kws.Keys - done
      invariant MergedOn(index, kws, done, merged)
      decreases todo
    {
      var d :| d in todo;
      var occ := kws[d];
      var list: seq<Occurrence>;
      if d in merged {
        var appended := merged[d] + [occ];
        assert appended[..|appended| - 1] == index[d];
        var probes;
        list, probes := InsertLastOccurrence(appended);
      } else {
        list := [occ];
      }
      MergeOneKey(index, kws, done, merged, d, list);
      merged := merged[d := list];
      done := done + {d};
      todo := todo - {d};
    }
  }

  predicate WellFormedDocuments(docs: seq<Document>)
  {
    forall i :: 0 <= i < |docs| ==> WellFormedTokens(docs[i].tokens)
  }

  /** The reference contents of keyword `k`'s list: one occurrence per document
      in which some token normalises to `k`, in document order, with the count. */
  function ExpectedOccurrences(docs: seq<Document>, noise: set<string>, k: string): seq<Occurrence>
    requires WellFormedDocuments(docs)
  {
    if |docs| == 0 then []
    else
      var last := docs[|docs| - 1];
      var count := KeyWordCount(last.tokens, noise, k);
      ExpectedOccurrences(docs[..|docs| - 1], noise, k)
      + (if count > 0 then [Occurrence(last.name, count)] else [])
  }

  /** Adding a document adds at most its own occurrence to a keyword's expected list. */
  lemma ExpectedStep(done: seq<Document>, doc: Document, noise: set<string>, k: string)
    requires WellFormedDocuments(done) && WellFormedTokens(doc.tokens)
    ensures WellFormedDocuments(done + [doc])
    ensures var count := KeyWordCount(doc.tokens, noise, k);
      ExpectedOccurrences(done + [doc], noise, k) ==
      ExpectedOccurrences(done, noise, k) + (if count > 0 then [Occurrence(doc.name, count)] else [])
  {
    var docs := done + [doc];
    assert docs[..|done|] == done;
    assert docs[|done|] == doc;
  }

  /** `kws` holds what `LoadKeyWords` promises for `doc`. */
  ghost predicate DocumentKeyWords(doc: Document, noise: set<string>, kws: map<string, Occurrence>)
    requires WellFormedTokens(doc.tokens)
  {
    && (forall k :: k in kws <==> KeyWordCount(doc.tokens, noise, k) > 0)
    && (forall k :: k in kws ==> kws[k] == Occurrence(doc.name, KeyWordCount(doc.tokens, noise, k)))
  }

  /** Keyword `k` is indexed as `docs` demand: it has a list exactly when it occurs,
      and that list is sorted and holds the expected occurrences. */
  ghost predicate KeyIndexed(docs: seq<Document>, noise: set<string>, index: Index, k: string)
    requires WellFormedDocuments(docs)
  {
    && (k in index <==> |ExpectedOccurrences(docs, noise, k)| > 0)
    && (k in index ==>
          && |index[k]| >= 1 && Sorted(index[k])
          && multiset(index[k]) == multiset(ExpectedOccurrences(docs, noise, k)))
  }

  /** `index` is the index of `docs`. */
  ghost predicate IndexOf(docs: seq<Document>, noise: set<string>, index: Index)
    requires WellFormedDocuments(docs)
  {
    forall k :: KeyIndexed(docs, noise, index, k)
  }

  /** Indexes the documents in order, starting from a fresh engine: the noise words
      are loaded first, then every document's keywords are loaded and merged. */
  method MakeIndex(noiseWordList: seq<string>, docs: seq<Document>) returns (engine: Engine)
    requires WellFormedDocuments(docs)
    ensures engine.noiseWords == set w | w in noiseWordList
    ensures WellSortedIndex(engine.keywordsIndex)
    ensures forall k :: k in engine.keywordsIndex <==> |ExpectedOccurrences(docs, engine.noiseWords, k)| > 0
    ensures forall k :: k in engine.keywordsIndex ==>
              multiset(engine.keywordsIndex[k]) == multiset(ExpectedOccurrences(docs, engine.noiseWords, k))
    ensures IndexOf(docs, engine.noiseWords, engine.keywordsIndex)
  {
    var noise := set w | w in noiseWordList;
    var index: Index := map[];
    var i := 0;
    while i < |docs|
      invariant 0 <= i <= |docs|
      invariant WellFormedDocuments(docs[..i])
      invariant IndexOf(docs[..i], noise, index)
    {
      var doc := docs[i];
      var kws := LoadKeyWords(doc.name, doc.tokens, noise);
      var merged := MergeKeyWords(index, kws);
      assert docs[..i + 1] == docs[..i] + [doc];
      MergeStep(docs[..i], doc, noise, index, kws, merged);
      index := merged;
      i := i + 1;
    }
    assert docs[..|docs|] == docs;
    forall k
      ensures k in index <==> |ExpectedOccurrences(docs, noise, k)| > 0
      ensures k in index ==>
        |index[k]| >= 1 && Sorted(index[k])
        && multiset(index[k]) == multiset(ExpectedOccurrences(docs, noise, k))
    {
      assert KeyIndexed(docs, noise, index, k);
    }
    engine := Engine(index, noise);
  }

  /** One round of `MakeIndex` keeps its invariant. */
  lemma MergeStep(done: seq<Document>, doc: Document, noise: set<string>, index: Index,
                  kws: map<string, Occurrence>, merged: Index)
    requires WellFormedDocuments(done) && WellFormedTokens(doc.tokens)
    requires IndexOf(done, noise, index)
    requires DocumentKeyWords(doc, noise, kws)
    requires MergedOn(index, kws, kws.Keys, merged)
    ensures WellFormedDocuments(done + [doc])
    ensures IndexOf(done + [doc], noise, merged)
  {
    ExpectedStep(done, doc, noise, "");
    forall k
      ensures KeyIndexed(done + [doc], noise, merged, k)
    {
      assert KeyIndexed(done, noise, index, k);
      MergeStepKey(done, doc, noise, index, kws, merged, k);
    }
  }

  lemma MergeStepKey(done: seq<Document>, doc: Document, noise: set<string>, index: Index,
                     kws: map<string, Occurrence>, merged: Index, k: string)
    requires WellFormedDocuments(done) && WellFormedTokens(doc.tokens)
    requires KeyIndexed(done, noise, index, k)
    requires DocumentKeyWords(doc, noise, kws)
    requires MergedOn(index, kws, kws.Keys, merged)
    ensures WellFormedDocuments(done + [doc])
    ensures KeyIndexed(done + [doc], noise, merged, k)
  {
    ExpectedStep(done, doc, noise, k);
    if k in kws && k in index {
      InsertionMultiset(index[k], kws[k], merged[k]);
    }
  }
}

=== FILE: insertion.dfy ===
/** The binary-search relocation of a newly appended occurrence (`insertLastOccurrence`). */
module Insertion {
  import opened Wrappers
  import opened Occurrences

  /** The search of a list of `n >= 2` entries probes exactly one midpoint, `(n-2)/2`,
      when the list has two entries, when the new frequency equals the one found
      there, or when the list has three entries and the new frequency is the larger. */
  predicate SingleProbe(occs: seq<Occurrence>)
    requires |occs| >= 2
  {
    var n := |occs|;
    var f := occs[n - 1].frequency;
    n == 2 || f == occs[(n - 2) / 2].frequency || (n == 3 && f > occs[0].frequency)
  }

  /** Where the search leaves the new entry: after `mid` when it is less frequent
      than the entry found there, otherwise at `mid`. */
  function PlaceAfterSearch(occs: seq<Occurrence>, mid: int): int
    requires |occs| >= 2
    requires 0 <= mid < |occs|
  {
    if occs[|occs| - 1].frequency < occs[mid].frequency then mid + 1 else mid
  }

  /** The binary search over positions `0 .. n-2` for the frequency of the last entry.
      Returns the last midpoint probed and every midpoint probed, in order. The place
      it selects lies between an entry at least as frequent (or the front) and an
      entry no more frequent (or the end) -- the first of these only up to ties,
      which is enough once the first `n-1` entries are sorted. */
  method BinarySearch(occs: seq<Occurrence>) returns (mid: int, x: seq<int>)
    requires |occs| >= 2
    ensures 0 <= mid <= |occs| - 2
    ensures var pos := PlaceAfterSearch(occs, mid); var f := occs[|occs| - 1].frequency;
      && (pos == 0 || occs[pos - 1].frequency > f || occs[pos].frequency == f)
      && (pos == |occs| - 1 || occs[pos].frequency <= f)
    ensures |x| >= 1 && x[0] == (|occs| - 2) / 2
    ensures |x| == 1 <==> SingleProbe(occs)
    ensures forall i :: 0 <= i < |x| ==> 0 <= x[i] <= |occs| - 2
  {
    var n := |occs|;
    var b := occs[n - 1];
    x := [];
    var max := n - 2;
    var min := 0;
    mid := (max + min) / 2;
    ghost var m0 := (n - 2) / 2;
    while max >= min
      invariant 0 <= min <= max + 1 <= n - 1
      invariant 0 <= mid <= n - 2
      invariant min == 0 || occs[min - 1].frequency > b.frequency
      invariant max == n - 2 || occs[max + 1].frequency < b.frequency
      invariant |x| == 0 ==> min == 0 && max == n - 2
      invariant |x| >= 1 ==> x[0] == m0
      invariant |x| >= 1 ==>
        (b.frequency < occs[mid].frequency && min == mid + 1) ||
        (b.frequency > occs[mid].frequency && max == mid - 1)
      invariant |x| == 1 ==> (min == m0 + 1 && max == n - 2) || (min == 0 && max == m0 - 1)
      invariant |x| >= 2 ==> !SingleProbe(occs)
      invariant forall i :: 0 <= i < |x| ==> 0 <= x[i] <= n - 2
      decreases max - min
    {
      mid := (max + min) / 2;
      if b.frequency < occs[mid].frequency {
        min := mid + 1;
        x := x + [mid];
      } else if b.frequency > occs[mid].frequency {
        max := mid - 1;
        x := x + [mid];
      } else {
        x := x + [mid];
        break;
      }
    }
  }

  /** Putting the last entry at the place the search selected: the only entry moved. */
  lemma InsertAtSearchPlace(occs: seq<Occurrence>, mid: int, res: seq<Occurrence>)
    requires |occs| >= 2 && 0 <= mid <= |occs| - 2
    requires var pos := PlaceAfterSearch(occs, mid); var f := occs[|occs| - 1].frequency;
      && (pos == 0 || occs[pos - 1].frequency > f || occs[pos].frequency == f)
      && (pos == |occs| - 1 || occs[pos].frequency <= f)
    requires var pos := PlaceAfterSearch(occs, mid); var rest := occs[..|occs| - 1];
      res == rest[..pos] + [occs[|occs| - 1]] + rest[pos..]
    ensures IsInsertion(occs[..|occs| - 1], occs[|occs| - 1], res)
    ensures multiset(res) == multiset(occs)
    ensures Sorted(occs[..|occs| - 1]) ==> Sorted(res)
  {
    var n := |occs|;
    var b := occs[n - 1];
    var rest := occs[..n - 1];
    var pos := PlaceAfterSearch(occs, mid);
    assert IsInsertion(rest, b, res);
    InsertionMultiset(rest, b, res);
    assert occs == rest + [b];
    if Sorted(rest) {
      if pos > 0 && pos < n - 1 {
        assert rest[pos - 1] == occs[pos - 1] && rest[pos] == occs[pos];
      }
      InsertKeepsSorted(rest, b, pos);
    }
  }

  /** Moves the last occurrence of `occs` to its place among the others, found by
      `BinarySearch`. Returns the new list and the probed midpoints, the latter
      `None` when the list has at most one entry or when a single midpoint was probed. */
  method InsertLastOccurrence(occs: seq<Occurrence>) returns (res: seq<Occurrence>, probes: Option<seq<int>>)
    ensures |occs| <= 1 ==> res == occs && probes == None
    ensures |occs| >= 1 ==> IsInsertion(occs[..|occs| - 1], occs[|occs| - 1], res)
    ensures multiset(res) == multiset(occs)
    ensures |occs| >= 1 && Sorted(occs[..|occs| - 1]) ==> Sorted(res)
    ensures |occs| >= 2 ==> (probes.None? <==> SingleProbe(occs))
    ensures probes.Some? ==> |probes.value| >= 2 && probes.value[0] == (|occs| - 2) / 2
    ensures probes.Some? ==> forall i :: 0 <= i < |probes.value| ==> 0 <= probes.value[i] <= |occs| - 2
  {
    if |occs| <= 1 {
      if |occs| == 1 {
        var rest := occs[..0];
        assert occs == rest[..0] + [occs[0]] + rest[0..];
      }
      return occs, None;
    }
    var n := |occs|;
    var b := occs[n - 1];
    var mid, x := BinarySearch(occs);
    var rest := occs[..n - 1];
    var pos := PlaceAfterSearch(occs, mid);
    res := rest[..pos] + [b] + rest[pos..];
    InsertAtSearchPlace(occs, mid, res);
    probes := if |x| == 1 then None else Some(x);
  }
}

=== FILE: keywords.dfy ===
/** Turning a raw token into a keyword (`getKeyWord`).

    `Character.isLetter` is modelled by the ASCII letters and `toLowerCase` by a
    per-character ASCII map, which keeps the length of the string: under that
    assumption the lower-cased prefix and the original word agree position by
    position, so checking the word or its lower-cased prefix for letters is the same. */
module KeyWords {
  import opened Wrappers

  predicate IsLetter(c: char)
  {
    'a' <= c <= 'z' || 'A' <= c <= 'Z'
  }

  function ToLowerChar(c: char): char
  {
    if 'A' <= c <= 'Z' then (c as int - 'A' as int + 'a' as int) as char else c
  }

  function ToLower(s: string): (r: string)
    ensures |r| == |s|
    ensures forall i :: 0 <= i < |s| ==> r[i] == ToLowerChar(s[i])
  {
    seq(|s|, i requires 0 <= i < |s| => ToLowerChar(s[i]))
  }

  predicate AllLetters(s: string)
  {
    forall i :: 0 <= i < |s| ==> IsLetter(s[i])
  }

  predicate NoLetters(s: string)
  {
    forall i :: 0 <= i < |s| ==> !IsLetter(s[i])
  }

  /** A word made of lower-case letters only. */
  predicate IsLowerWord(s: string)
  {
    forall i :: 0 <= i < |s| ==> 'a' <= s[i] <= 'z'
  }

  /** `p` is what is left of `word` once every trailing non-letter is dropped:
      a prefix, followed only by non-letters, and ending in a letter unless empty. */
  ghost predicate IsStem(word: string, p: string)
  {
    && |p| <= |word|
    && p == word[..|p|]
    && NoLetters(word[|p|..])
    && (|p| == 0 || IsLetter(p[|p| - 1]))
  }

  /** The length of the stem: one past the last letter of `w`, or 0 if `w` has
      no letter (the backwards scan, whose index ends one below this value). */
  function StemLength(w: string): (z: nat)
    ensures z <= |w|
    ensures z == 0 || IsLetter(w[z - 1])
    ensures forall i :: z <= i < |w| ==> !IsLetter(w[i])
  {
    if |w| == 0 then 0
    else if IsLetter(w[|w| - 1]) then |w|
    else StemLength(w[..|w| - 1])
  }

  /** The stem of a word is unique, and it is the prefix of length `StemLength`. */
  lemma StemIsPrefixOfStemLength(word: string, p: string)
    requires IsStem(word, p)
    ensures p == word[..StemLength(word)]
  {
  }

  lemma StemLengthIsStem(word: string)
    ensures IsStem(word, word[..StemLength(word)])
  {
    var z := StemLength(word);
    var rest := word[z..];
    forall i | 0 <= i < |rest|
      ensures !IsLetter(rest[i])
    {
      assert rest[i] == word[z + i];
    }
  }

  /** The keyword of a raw token, or `None` (Java `null`) when it is not one.
      A one-character token is kept as it is, unless it is itself a noise word;
      a longer token loses its trailing non-letters, must then consist of letters
      only, and is lower-cased and checked against the noise words. A longer
      token without any letter therefore gives the empty keyword. */
  function GetKeyWord(word: string, noise: set<string>): (r: Option<string>)
    requires |word| >= 1
    ensures |word| == 1 ==> (r.Some? <==> word !in noise)
    ensures |word| == 1 && r.Some? ==> r.value == word
    ensures |word| >= 2 ==> forall p :: IsStem(word, p) ==>
              (r.Some? <==> AllLetters(p) && ToLower(p) !in noise) &&
              (r.Some? ==> r.value == ToLower(p))
    ensures r.Some? ==> r.value !in noise
    ensures r.Some? && |word| >= 2 ==> IsLowerWord(r.value) && |r.value| <= |word|
  {
    if |word| == 1 then
      if word in noise then None else Some(word)
    else
      var z := StemLength(word);
      var stem := word[..z];
      var lower := ToLower(stem);
      StemLengthIsStem(word);
      assert forall p :: IsStem(word, p) ==> p == stem by {
        forall p | IsStem(word, p)
          ensures p == stem
        {
          StemIsPrefixOfStemLength(word, p);
        }
      }
      if !AllLetters(stem) then None
      else if lower in noise then None
      else Some(lower)
  }

  lemma LowerCaseLetters(c: char)
    ensures IsLetter(ToLowerChar(c)) <==> IsLetter(c)
    ensures ToLowerChar(ToLowerChar(c)) == ToLowerChar(c)
    ensures 'a' <= c <= 'z' ==> ToLowerChar(c) == c
  {
  }

  /** A word of lower-case letters that is not a noise word is its own keyword,
      so `"end"` stays `"end"`. */
  lemma {:induction false} LowerWordIsKeyWord(w: string, noise: set<string>)
    requires |w| >= 1 && IsLowerWord(w) && w !in noise
    ensures GetKeyWord(w, noise) == Some(w)
  {
    if |w| >= 2 {
      assert w[..|w|] == w;
      assert IsStem(w, w);
      assert ToLower(w) == w by {
        forall i | 0 <= i < |w|
          ensures ToLower(w)[i] == w[i]
        {
          LowerCaseLetters(w[i]);
        }
      }
    }
  }

  /** Normalising a keyword again gives the same keyword. */
  lemma {:induction false} KeyWordIdempotent(w: string, noise: set<string>)
    requires |w| >= 1
    requires GetKeyWord(w, noise).Some?
    requires |GetKeyWord(w, noise).value| >= 1
    ensures GetKeyWord(GetKeyWord(w, noise).value, noise) == GetKeyWord(w, noise)
  {
    var k := GetKeyWord(w, noise).value;
    if |w| >= 2 {
      LowerWordIsKeyWord(k, noise);
    }
  }

  lemma LowerPrefix(w: string, z: nat)
    requires z <= |w|
    ensures ToLower(w[..z]) == ToLower(w)[..z]
  {
    var lp, lw := ToLower(w[..z]), ToLower(w);
    forall i | 0 <= i < z
      ensures lp[i] == lw[..z][i]
    {
      assert w[..z][i] == w[i];
    }
  }

  lemma LowerSuffix(w: string, z: nat)
    requires z <= |w|
    requires forall i :: z <= i < |w| ==> !IsLetter(w[i])
    ensures NoLetters(ToLower(w)[z..])
  {
    var lw := ToLower(w);
    forall i | 0 <= i < |lw| - z
      ensures !IsLetter(lw[z..][i])
    {
      assert lw[z..][i] == ToLowerChar(w[z + i]);
      LowerCaseLetters(w[z + i]);
    }
  }

  /** Lower-casing a word lower-cases its stem and keeps the trailing non-letters. */
  lemma LowerKeepsStem(w: string)
    requires |w| >= 2
    ensures IsStem(ToLower(w), ToLower(w[..StemLength(w)]))
  {
    var z := StemLength(w);
    LowerPrefix(w, z);
    LowerSuffix(w, z);
    if z > 0 {
      LowerCaseLetters(w[z - 1]);
    }
  }

  /** Lower-casing keeps letters letters, and doing it twice changes nothing more. */
  lemma LowerKeepsLetters(p: string)
    ensures AllLetters(ToLower(p)) <==> AllLetters(p)
    ensures ToLower(ToLower(p)) == ToLower(p)
  {
    var lp := ToLower(p);
    forall i | 0 <= i < |p|
      ensures IsLetter(lp[i]) <==> IsLetter(p[i])
      ensures ToLower(lp)[i] == lp[i]
    {
      LowerCaseLetters(p[i]);
    }
  }

  /** Tokens of two or more characters are normalised without regard to case:
      `"Fish."` and `"fish."` give the same answer. One-character tokens are not
      lower-cased at all, so the lemma does not extend to them. */
  lemma {:induction false} KeyWordIgnoresCase(w: string, noise: set<string>)
    requires |w| >= 2
    ensures GetKeyWord(w, noise) == GetKeyWord(ToLower(w), noise)
  {
    var p := w[..StemLength(w)];
    StemLengthIsStem(w);
    LowerKeepsStem(w);
    LowerKeepsLetters(p);
  }

  /** Trailing punctuation is dropped: `"end..."` gives `"end"`. */
  lemma TrailingPunctuationExample()
    ensures GetKeyWord("end...", {}) == Some("end")
  {
    assert "end..."[..5] == "end.." && "end.."[..4] == "end." && "end."[..3] == "end";
    assert StemLength("end...") == 3;
    assert "end..."[..3] == "end";
    assert ToLower("end") == "end";
  }

  /** A non-letter inside the word rejects it: `"can't"` is not a keyword. */
  lemma InteriorApostropheExample()
    ensures GetKeyWord("can't", {}) == None
  {
    assert StemLength("can't") == 5;
    assert "can't"[..5] == "can't";
    assert !IsLetter("can't"[3]);
  }

  /** `"Fish."` is lower-cased to `"fish"`, unless `"fish"` is a noise word. */
  lemma CapitalisedExample()
    ensures GetKeyWord("Fish.", {}) == Some("fish")
    ensures GetKeyWord("Fish.", {"fish"}) == None
  {
    assert "Fish."[..4] == "Fish";
    assert StemLength("Fish.") == 4;
    assert "Fish."[..4] == "Fish";
    assert ToLower("Fish") == "fish";
  }

  /** A one-character token is neither lower-cased nor checked for being a letter. */
  lemma SingleCharacterExample()
    ensures GetKeyWord("A", {"a"}) == Some("A")
    ensures GetKeyWord("7", {}) == Some("7")
    ensures GetKeyWord("a", {"a"}) == None
  {
  }

  /** A longer token without any letter gives the empty keyword rather than `None`. */
  lemma NoLetterExample()
    ensures GetKeyWord("?!", {}) == Some("")
  {
    assert "?!"[..1] == "?" && "?"[..0] == "";
    assert StemLength("?!") == 0;
    assert "?!"[..0] == "";
  }
}

=== FILE: loader.dfy ===
/** Counting the keywords of one document (the scanning loop of `loadKeyWords`).
    The document's whitespace-separated tokens are given; reading the file is not modelled. */
module Loader {
  import opened Wrappers
  import opened Occurrences
  import opened KeyWords

  /** Tokens as a whitespace scanner yields them: never empty. */
  predicate WellFormedTokens(tokens: seq<string>)
  {
    forall i :: 0 <= i < |tokens| ==> |tokens[i]| >= 1
  }

  /** The keyword of every token, in token order (`None` for a token that is not one). */
  function Normalise(tokens: seq<string>, noise: set<string>): (ks: seq<Option<string>>)
    requires WellFormedTokens(tokens)
    ensures |ks| == |tokens|
    ensures forall i :: 0 <= i < |tokens| ==> ks[i] == GetKeyWord(tokens[i], noise)
  {
    seq(|tokens|, i requires 0 <= i < |tokens| => GetKeyWord(tokens[i], noise))
  }

  /** How many tokens normalise to keyword `k`: the reference count. */
  function KeyWordCount(tokens: seq<string>, noise: set<string>, k: string): nat
    requires WellFormedTokens(tokens)
  {
    multiset(Normalise(tokens, noise))[Some(k)]
  }

  /** The scanning loop over the already normalised tokens: a keyword seen for the
      first time gets frequency 1, a keyword seen again one more. */
  function Tally(docFile: string, ks: seq<Option<string>>): (kws: map<string, Occurrence>)
    ensures forall k :: k in kws <==> Some(k) in ks
    ensures forall k :: k in kws ==> kws[k] == Occurrence(docFile, multiset(ks)[Some(k)])
  {
    if |ks| == 0 then map[]
    else
      var init := ks[..|ks| - 1];
      var previous := Tally(docFile, init);
      assert ks == init + [ks[|ks| - 1]];
      match ks[|ks| - 1]
      case None => previous
      case Some(word) =>
        if word in previous then
          previous[word := Occurrence(docFile, previous[word].frequency + 1)]
        else
          previous[word := Occurrence(docFile, 1)]
  }

  /** The keyword occurrences of document `docFile`: one entry per keyword that
      some token normalises to, bound to `docFile`, with the number of such tokens. */
  function LoadKeyWords(docFile: string, tokens: seq<string>, noise: set<string>): (kws: map<string, Occurrence>)
    requires WellFormedTokens(tokens)
    ensures forall k :: k in kws <==> exists i :: 0 <= i < |tokens| && GetKeyWord(tokens[i], noise) == Some(k)
    ensures forall k :: k in kws <==> KeyWordCount(tokens, noise, k) > 0
    ensures forall k :: k in kws ==> kws[k] == Occurrence(docFile, KeyWordCount(tokens, noise, k))
  {
    var ks := Normalise(tokens, noise);
    assert forall k :: Some(k) in ks <==> exists i :: 0 <= i < |tokens| && GetKeyWord(tokens[i], noise) == Some(k) by {
      forall k
        ensures Some(k) in ks <==> exists i :: 0 <= i < |tokens| && GetKeyWord(tokens[i], noise) == Some(k)
      {
        if Some(k) in ks {
          var i :| 0 <= i < |ks| && ks[i] == Some(k);
          assert GetKeyWord(tokens[i], noise) == Some(k);
        }
      }
    }
    Tally(docFile, ks)
  }
}

=== FILE: occurrences.dfy ===
/** Occurrences of a keyword in documents, and the ordering the index keeps them in. */
module Occurrences {

  /** A (document name, frequency) pair: how often one keyword occurs in one document. */
  datatype Occurrence = Occurrence(document: string, frequency: int)

  /** Non-increasing order of frequency, the order every index list is kept in. */
  predicate Sorted(s: seq<Occurrence>)
  {
    forall i, j :: 0 <= i < j < |s| ==> s[i].frequency >= s[j].frequency
  }

  /** `ys` is `xs` with `x` put in at some position and nothing else moved. */
  predicate IsInsertion(xs: seq<Occurrence>, x: Occurrence, ys: seq<Occurrence>)
  {
    exists k :: 0 <= k <= |xs| && ys == xs[..k] + [x] + xs[k..]
  }

  /** The document names of a list of occurrences, in list order. */
  function Documents(s: seq<Occurrence>): (names: seq<string>)
    ensures |names| == |s|
    ensures forall i :: 0 <= i < |s| ==> names[i] == s[i].document
  {
    seq(|s|, i requires 0 <= i < |s| => s[i].document)
  }

  /** No document name occurs twice. */
  predicate DistinctNames(names: seq<string>)
  {
    forall i, j :: 0 <= i < j < |names| ==> names[i] != names[j]
  }

  /** The document of every member of a list is among the list's names. */
  lemma DocumentOfMember(s: seq<Occurrence>, o: Occurrence)
    requires o in s
    ensures o.document in Documents(s)
  {
    var j :| 0 <= j < |s| && s[j] == o;
    assert Documents(s)[j] == o.document;
  }

  /** A sorted list holding two occurrences of different frequency lists the more
      frequent one first. */
  lemma SortedPair(s: seq<Occurrence>, x: Occurrence, y: Occurrence)
    requires Sorted(s) && multiset(s) == multiset([x, y])
    requires x.frequency > y.frequency
    ensures s == [x, y]
  {
    assert |s| == 2 by { assert |multiset(s)| == 2; }
    assert s == [s[0], s[1]];
    assert multiset{s[0], s[1]} == multiset{x, y};
    assert s[0].frequency >= s[1].frequency;
    assert s[0] == x by {
      assert x in multiset{s[0], s[1]};
      assert y in multiset{s[0], s[1]};
    }
  }

  /** Putting one element into a list adds exactly that element to its multiset. */
  lemma InsertionMultiset(xs: seq<Occurrence>, x: Occurrence, ys: seq<Occurrence>)
    requires IsInsertion(xs, x, ys)
    ensures |ys| == |xs| + 1
    ensures multiset(ys) == multiset(xs) + multiset{x}
  {
    var k :| 0 <= k <= |xs| && ys == xs[..k] + [x] + xs[k..];
    assert xs == xs[..k] + xs[k..];
  }

  /** Inserting `x` between the neighbours it fits between keeps a sorted list sorted. */
  lemma InsertKeepsSorted(xs: seq<Occurrence>, x: Occurrence, k: int)
    requires Sorted(xs)
    requires 0 <= k <= |xs|
    requires k == 0 || xs[k - 1].frequency >= x.frequency
    requires k == |xs| || xs[k].frequency <= x.frequency
    ensures Sorted(xs[..k] + [x] + xs[k..])
    ensures IsInsertion(xs, x, xs[..k] + [x] + xs[k..])
  {
    var ys := xs[..k] + [x] + xs[k..];
    forall i, j | 0 <= i < j < |ys|
      ensures ys[i].frequency >= ys[j].frequency
    {
      if j < k {
        assert ys[i] == xs[i] && ys[j] == xs[j];
      } else if j == k {
        assert ys[i] == xs[i] && xs[i].frequency >= xs[k - 1].frequency;
      } else if i == k {
        assert ys[j] == xs[j - 1] && xs[k].frequency >= xs[j - 1].frequency;
      } else if i < k {
        assert ys[i] == xs[i] && ys[j] == xs[j - 1];
      } else {
        assert ys[i] == xs[i - 1] && ys[j] == xs[j - 1];
      }
    }
  }

  /** A name of a list stays a name of every list that extends it. */
  lemma DocumentsOfPrefix(s: seq<Occurrence>, t: seq<Occurrence>)
    requires |s| <= |t| && t[..|s|] == s
    ensures forall x :: x in Documents(s) ==> x in Documents(t)
  {
    forall x | x in Documents(s)
      ensures x in Documents(t)
    {
      var i :| 0 <= i < |s| && Documents(s)[i] == x;
      assert t[i] == s[i];
      assert Documents(t)[i] == x;
    }
  }

  /** Appending an entry no more frequent than the last keeps a list sorted. */
  lemma SortedAppend(s: seq<Occurrence>, o: Occurrence)
    requires Sorted(s)
    requires |s| > 0 ==> s[|s| - 1].frequency >= o.frequency
    ensures Sorted(s + [o])
  {
  }
}

=== FILE: search.dfy ===
/** The two-keyword query (`top5search`): a merge of two frequency-ordered lists
    into at most five distinct document names. */
module Search {
  import opened Wrappers
  import opened Occurrences

  /** The most documents a query reports. */
  const Limit := 5

  /** A keyword's list, or the empty list for a keyword the index does not hold. */
  function Lookup(index: map<string, seq<Occurrence>>, kw: string): seq<Occurrence>
  {
    if kw in index then index[kw] else []
  }

  function Last(s: seq<Occurrence>): Occurrence
    requires |s| > 0
  {
    s[|s| - 1]
  }

  /** Appends `o` unless its document is already among the picks. */
  function AddIfNew(picks: seq<Occurrence>, o: Occurrence): (r: seq<Occurrence>)
    ensures |picks| <= |r| <= |picks| + 1
    ensures r[..|picks|] == picks
    ensures |r| == |picks| + 1 ==> r[|picks|] == o
    ensures o.document in Documents(r)
    ensures o.document in Documents(picks) ==> r == picks
    ensures o.document !in Documents(picks) ==> |r| == |picks| + 1
    ensures DistinctNames(Documents(picks)) ==> DistinctNames(Documents(r))
  {
    if o.document in Documents(picks) then picks else picks + [o]
  }

  /** The state of the merge loop: the two list pointers and the occurrences
      whose documents have been reported so far. */
  datatype Cursor = Cursor(p1: nat, p2: nat, picks: seq<Occurrence>)

  predicate Valid(a: seq<Occurrence>, b: seq<Occurrence>, c: Cursor)
  {
    c.p1 <= |a| && c.p2 <= |b| && |c.picks| <= Limit
  }

  /** The loop stops once five names are reported or both lists are used up. */
  predicate Done(a: seq<Occurrence>, b: seq<Occurrence>, c: Cursor)
    requires Valid(a, b, c)
  {
    |c.picks| >= Limit || (c.p1 >= |a| && c.p2 >= |b|)
  }

  /** One round of the merge loop. The more frequent head is taken (skipped if its
      document is already reported); on equal frequencies the head of `a` is taken
      first and then, if there is still room, the head of `b`, and both pointers
      advance either way. */
  function Step(a: seq<Occurrence>, b: seq<Occurrence>, c: Cursor): (d: Cursor)
    requires Valid(a, b, c) && !Done(a, b, c)
    ensures Valid(a, b, d)
    ensures d.p1 >= c.p1 && d.p2 >= c.p2 && d.p1 + d.p2 > c.p1 + c.p2
    ensures |c.picks| <= |d.picks| && d.picks[..|c.picks|] == c.picks
    ensures c.picks == [] ==> |d.picks| >= 1
    ensures forall i :: |c.picks| <= i < |d.picks| ==> d.picks[i] in a || d.picks[i] in b
    ensures DistinctNames(Documents(c.picks)) ==> DistinctNames(Documents(d.picks))
  {
    if c.p1 >= |a| then TakeSecond(a, b, c)
    else if c.p2 >= |b| then TakeFirst(a, b, c)
    else if a[c.p1].frequency > b[c.p2].frequency then TakeFirst(a, b, c)
    else if b[c.p2].frequency > a[c.p1].frequency then TakeSecond(a, b, c)
    else Cursor(c.p1 + 1, c.p2 + 1, AddBoth(c.picks, a[c.p1], b[c.p2]))
  }

  /** Reports the head of `a` and advances past it. */
  function TakeFirst(a: seq<Occurrence>, b: seq<Occurrence>, c: Cursor): (d: Cursor)
    requires Valid(a, b, c) && |c.picks| < Limit && c.p1 < |a|
    ensures Valid(a, b, d) && d.p1 == c.p1 + 1 && d.p2 == c.p2
    ensures |c.picks| <= |d.picks| && d.picks[..|c.picks|] == c.picks
    ensures c.picks == [] ==> |d.picks| >= 1
    ensures forall i :: |c.picks| <= i < |d.picks| ==> d.picks[i] in a
    ensures |d.picks| <= |c.picks| + 1 && (|d.picks| > |c.picks| ==> d.picks[|c.picks|] == a[c.p1])
    ensures a[c.p1].document in Documents(d.picks)
    ensures DistinctNames(Documents(c.picks)) ==> DistinctNames(Documents(d.picks))
  {
    Cursor(c.p1 + 1, c.p2, AddIfNew(c.picks, a[c.p1]))
  }

  /** Reports the head of `b` and advances past it. */
  function TakeSecond(a: seq<Occurrence>, b: seq<Occurrence>, c: Cursor): (d: Cursor)
    requires Valid(a, b, c) && |c.picks| < Limit && c.p2 < |b|
    ensures Valid(a, b, d) && d.p1 == c.p1 && d.p2 == c.p2 + 1
    ensures |c.picks| <= |d.picks| && d.picks[..|c.picks|] == c.picks
    ensures c.picks == [] ==> |d.picks| >= 1
    ensures forall i :: |c.picks| <= i < |d.picks| ==> d.picks[i] in b
    ensures |d.picks| <= |c.picks| + 1 && (|d.picks| > |c.picks| ==> d.picks[|c.picks|] == b[c.p2])
    ensures b[c.p2].document in Documents(d.picks)
    ensures DistinctNames(Documents(c.picks)) ==> DistinctNames(Documents(d.picks))
  {
    Cursor(c.p1, c.p2 + 1, AddIfNew(c.picks, b[c.p2]))
  }

  /** The tie round: `x` is added, then `y` too if there is still room. */
  function AddBoth(picks: seq<Occurrence>, x: Occurrence, y: Occurrence): (r: seq<Occurrence>)
    requires |picks| < Limit
    ensures |picks| <= |r| <= Limit && |r| <= |picks| + 2
    ensures r[..|picks|] == picks
    ensures picks == [] ==> |r| >= 1
    ensures forall i :: |picks| <= i < |r| ==> r[i] == x || r[i] == y
    ensures x.document in Documents(r)
    ensures x.document !in Documents(picks) ==> |r| > |picks| && r[|picks|] == x
    ensures |AddIfNew(picks, x)| < Limit ==> y.document in Documents(r)
    ensures DistinctNames(Documents(picks)) ==> DistinctNames(Documents(r))
  {
    var first := AddIfNew(picks, x);
    if |first| < Limit then AddIfNew(first, y) else first
  }

  /** Runs the merge loop to the end and returns the occurrences whose documents it
      reported, in the order it reported them: never more than five, never one
      document twice, and extending what was reported before. */
  function MergeTop(a: seq<Occurrence>, b: seq<Occurrence>, c: Cursor): (r: seq<Occurrence>)
    requires Valid(a, b, c)
    ensures |c.picks| <= |r| <= Limit
    ensures r[..|c.picks|] == c.picks
    ensures DistinctNames(Documents(c.picks)) ==> DistinctNames(Documents(r))
    ensures forall i :: |c.picks| <= i < |r| ==> r[i] in a || r[i] in b
    decreases |a| - c.p1 + |b| - c.p2
  {
    if Done(a, b, c) then c.picks
    else
      var d := Step(a, b, c);
      var r := MergeTop(a, b, d);
      assert forall i :: 0 <= i < |d.picks| ==> r[i] == d.picks[i] by {
        forall i | 0 <= i < |d.picks|
          ensures r[i] == d.picks[i]
        {
          assert r[..|d.picks|][i] == r[i];
        }
      }
      assert r[..|c.picks|] == d.picks[..|c.picks|];
      r
  }

  /** The heads of both lists are no more frequent than the last report. */
  ghost predicate HeadsBelowLast(a: seq<Occurrence>, b: seq<Occurrence>, c: Cursor)
    requires Valid(a, b, c)
  {
    |c.picks| > 0 ==>
      && (c.p1 < |a| ==> a[c.p1].frequency <= Last(c.picks).frequency)
      && (c.p2 < |b| ==> b[c.p2].frequency <= Last(c.picks).frequency)
  }

  /** Reporting an occurrence no more frequent than the last report keeps the
      report sorted, and its last entry is then at least as frequent as `o`. */
  lemma AddKeepsOrder(picks: seq<Occurrence>, o: Occurrence)
    requires Sorted(picks)
    requires |picks| > 0 ==> Last(picks).frequency >= o.frequency
    ensures var r := AddIfNew(picks, o); Sorted(r) && |r| > 0 && Last(r).frequency >= o.frequency
  {
    if o.document !in Documents(picks) {
      SortedAppend(picks, o);
    }
  }

  lemma StepKeepsOrder(a: seq<Occurrence>, b: seq<Occurrence>, c: Cursor)
    requires Valid(a, b, c) && !Done(a, b, c)
    requires Sorted(a) && Sorted(b) && Sorted(c.picks) && HeadsBelowLast(a, b, c)
    ensures Sorted(Step(a, b, c).picks) && HeadsBelowLast(a, b, Step(a, b, c))
  {
    var p1, p2 := c.p1, c.p2;
    if p1 >= |a| || (p2 < |b| && b[p2].frequency > a[p1].frequency) {
      TakeSecondKeepsOrder(a, b, c);
    } else if p2 >= |b| || a[p1].frequency > b[p2].frequency {
      TakeFirstKeepsOrder(a, b, c);
    } else {
      TakeBothKeepsOrder(a, b, c);
    }
  }

  lemma TakeSecondKeepsOrder(a: seq<Occurrence>, b: seq<Occurrence>, c: Cursor)
    requires Valid(a, b, c) && !Done(a, b, c)
    requires Sorted(a) && Sorted(b) && Sorted(c.picks) && HeadsBelowLast(a, b, c)
    requires c.p1 >= |a| || (c.p2 < |b| && b[c.p2].frequency > a[c.p1].frequency)
    ensures Sorted(Step(a, b, c).picks) && HeadsBelowLast(a, b, Step(a, b, c))
  {
    var p1, p2, picks := c.p1, c.p2, c.picks;
    var d := Cursor(p1, p2 + 1, AddIfNew(picks, b[p2]));
    assert Step(a, b, c) == d;
    AddKeepsOrder(picks, b[p2]);
    assert p2 + 1 < |b| ==> b[p2 + 1].frequency <= b[p2].frequency;
    assert p1 < |a| ==> a[p1].frequency <= Last(d.picks).frequency by {
      if p1 < |a| {
        assert a[p1].frequency < b[p2].frequency;
      }
    }
  }

  lemma TakeFirstKeepsOrder(a: seq<Occurrence>, b: seq<Occurrence>, c: Cursor)
    requires Valid(a, b, c) && !Done(a, b, c)
    requires Sorted(a) && Sorted(b) && Sorted(c.picks) && HeadsBelowLast(a, b, c)
    requires c.p1 < |a|
    requires c.p2 >= |b| || a[c.p1].frequency > b[c.p2].frequency
    ensures Sorted(Step(a, b, c).picks) && HeadsBelowLast(a, b, Step(a, b, c))
  {
    var p1, p2, picks := c.p1, c.p2, c.picks;
    assert Step(a, b, c) == Cursor(p1 + 1, p2, AddIfNew(picks, a[p1]));
    AddKeepsOrder(picks, a[p1]);
    assert p1 + 1 < |a| ==> a[p1 + 1].frequency <= a[p1].frequency;
  }

  lemma TakeBothKeepsOrder(a: seq<Occurrence>, b: seq<Occurrence>, c: Cursor)
    requires Valid(a, b, c) && !Done(a, b, c)
    requires Sorted(a) && Sorted(b) && Sorted(c.picks) && HeadsBelowLast(a, b, c)
    requires c.p1 < |a| && c.p2 < |b| && a[c.p1].frequency == b[c.p2].frequency
    ensures Sorted(Step(a, b, c).picks) && HeadsBelowLast(a, b, Step(a, b, c))
  {
    var p1, p2, picks := c.p1, c.p2, c.picks;
    var first := AddIfNew(picks, a[p1]);
    var second := if |first| < Limit then AddIfNew(first, b[p2]) else first;
    assert Step(a, b, c) == Cursor(p1 + 1, p2 + 1, second);
    AddKeepsOrder(picks, a[p1]);
    if |first| < Limit {
      AddKeepsOrder(first, b[p2]);
    }
    assert p1 + 1 < |a| ==> a[p1 + 1].frequency <= a[p1].frequency;
    assert p2 + 1 < |b| ==> b[p2 + 1].frequency <= b[p2].frequency;
  }

  /** Given sorted lists, the reported occurrences come in non-increasing frequency. */
  lemma {:induction false} MergeTopSorted(a: seq<Occurrence>, b: seq<Occurrence>, c: Cursor)
    requires Valid(a, b, c)
    requires Sorted(a) && Sorted(b) && Sorted(c.picks) && HeadsBelowLast(a, b, c)
    ensures Sorted(MergeTop(a, b, c))
    decreases |a| - c.p1 + |b| - c.p2
  {
    if !Done(a, b, c) {
      StepKeepsOrder(a, b, c);
      MergeTopSorted(a, b, Step(a, b, c));
    }
  }

  /** Every entry the loop has moved past has its document reported. */
  ghost predicate PassedReported(a: seq<Occurrence>, b: seq<Occurrence>, c: Cursor)
    requires Valid(a, b, c)
  {
    && (forall i :: 0 <= i < c.p1 ==> a[i].document in Documents(c.picks))
    && (forall j :: 0 <= j < c.p2 ==> b[j].document in Documents(c.picks))
  }

  lemma StepReportsPassed(a: seq<Occurrence>, b: seq<Occurrence>, c: Cursor)
    requires Valid(a, b, c) && !Done(a, b, c) && PassedReported(a, b, c)
    ensures |Step(a, b, c).picks| < Limit ==> PassedReported(a, b, Step(a, b, c))
  {
    var d := Step(a, b, c);
    DocumentsOfPrefix(c.picks, d.picks);
    if c.p1 < |a| && c.p2 < |b| && a[c.p1].frequency == b[c.p2].frequency {
      DocumentsOfPrefix(AddIfNew(c.picks, a[c.p1]), d.picks);
    }
  }

  /** When fewer than five names come out, every document of both lists is among them. */
  lemma {:induction false} MergeTopComplete(a: seq<Occurrence>, b: seq<Occurrence>, c: Cursor)
    requires Valid(a, b, c)
    requires |c.picks| < Limit ==> PassedReported(a, b, c)
    ensures var r := MergeTop(a, b, c);
      |r| < Limit ==>
        && (forall i :: 0 <= i < |a| ==> a[i].document in Documents(r))
        && (forall j :: 0 <= j < |b| ==> b[j].document in Documents(r))
    decreases |a| - c.p1 + |b| - c.p2
  {
    if !Done(a, b, c) {
      var d := Step(a, b, c);
      StepReportsPassed(a, b, c);
      MergeTopComplete(a, b, d);
      assert MergeTop(a, b, c) == MergeTop(a, b, d);
    }
  }

  /** Every entry moved past is reported, or it was passed over when the report was
      full and is no more frequent than the last report. */
  ghost predicate PassedReportedOrBelow(a: seq<Occurrence>, b: seq<Occurrence>, c: Cursor)
    requires Valid(a, b, c)
  {
    && (forall i :: 0 <= i < c.p1 ==>
          a[i].document in Documents(c.picks) ||
          (|c.picks| >= Limit && a[i].frequency <= Last(c.picks).frequency))
    && (forall j :: 0 <= j < c.p2 ==>
          b[j].document in Documents(c.picks) ||
          (|c.picks| >= Limit && b[j].frequency <= Last(c.picks).frequency))
  }

  lemma StepKeepsPassedBelow(a: seq<Occurrence>, b: seq<Occurrence>, c: Cursor)
    requires Valid(a, b, c) && !Done(a, b, c) && PassedReportedOrBelow(a, b, c)
    ensures PassedReportedOrBelow(a, b, Step(a, b, c))
  {
    var d := Step(a, b, c);
    DocumentsOfPrefix(c.picks, d.picks);
    if c.p1 < |a| && c.p2 < |b| && a[c.p1].frequency == b[c.p2].frequency {
      var first := AddIfNew(c.picks, a[c.p1]);
      DocumentsOfPrefix(first, d.picks);
      if |first| >= Limit {
        assert first == c.picks + [a[c.p1]];
      }
    }
  }

  /** With sorted lists the report is a top five: an occurrence of either list whose
      document is missing from a full report is no more frequent than its last entry. */
  lemma {:induction false} MergeTopBest(a: seq<Occurrence>, b: seq<Occurrence>, c: Cursor)
    requires Valid(a, b, c)
    requires Sorted(a) && Sorted(b) && Sorted(c.picks)
    requires HeadsBelowLast(a, b, c) && PassedReportedOrBelow(a, b, c)
    ensures var r := MergeTop(a, b, c);
      && (forall i :: 0 <= i < |a| ==>
            a[i].document in Documents(r) || (|r| == Limit && a[i].frequency <= Last(r).frequency))
      && (forall j :: 0 <= j < |b| ==>
            b[j].document in Documents(r) || (|r| == Limit && b[j].frequency <= Last(r).frequency))
    decreases |a| - c.p1 + |b| - c.p2
  {
    if Done(a, b, c) {
      forall i | c.p1 <= i < |a|
        ensures a[i].frequency <= a[c.p1].frequency
      {
      }
      forall j | c.p2 <= j < |b|
        ensures b[j].frequency <= b[c.p2].frequency
      {
      }
    } else {
      var d := Step(a, b, c);
      StepKeepsOrder(a, b, c);
      StepKeepsPassedBelow(a, b, c);
      MergeTopBest(a, b, d);
      assert MergeTop(a, b, c) == MergeTop(a, b, d);
    }
  }

  /** On equal head frequencies the head of `a` is reported before the head of `b`,
      and only the head of `a` when a single place is left. */
  lemma StepTieBreak(a: seq<Occurrence>, b: seq<Occurrence>, c: Cursor)
    requires Valid(a, b, c) && c.p1 < |a| && c.p2 < |b| && |c.picks| < Limit
    requires a[c.p1].frequency == b[c.p2].frequency
    requires a[c.p1].document !in Documents(c.picks) && b[c.p2].document !in Documents(c.picks)
    requires a[c.p1].document != b[c.p2].document
    ensures |c.picks| + 1 < Limit ==> Step(a, b, c).picks == c.picks + [a[c.p1], b[c.p2]]
    ensures |c.picks| + 1 == Limit ==> Step(a, b, c).picks == c.picks + [a[c.p1]]
  {
    var first := c.picks + [a[c.p1]];
    assert Documents(first) == Documents(c.picks) + [a[c.p1].document];
  }

  /** The merge as the query starts it: both pointers at the front, nothing reported. */
  const Start := Cursor(0, 0, [])

  /** What the merge reports from the start, in terms of the two lists alone. */
  lemma MergeFromStart(a: seq<Occurrence>, b: seq<Occurrence>)
    ensures var r := MergeTop(a, b, Start);
      && |r| <= Limit
      && DistinctNames(Documents(r))
      && (forall i :: 0 <= i < |r| ==> r[i] in a || r[i] in b)
      && (|r| == 0 <==> a == [] && b == [])
  {
    var r := MergeTop(a, b, Start);
    assert Start.picks == [];
    forall i | 0 <= i < |r|
      ensures r[i] in a || r[i] in b
    {
      assert |Start.picks| <= i < |r|;
    }
    if a != [] || b != [] {
      var d := Step(a, b, Start);
      assert r == MergeTop(a, b, d);
    }
  }

  /** The occurrences that contribute the names of a query for `kw1` or `kw2`, in
      report order. Keywords are looked up as given, without normalisation. */
  function Top5Picks(index: map<string, seq<Occurrence>>, kw1: string, kw2: string): (picks: seq<Occurrence>)
    ensures |picks| <= Limit
    ensures DistinctNames(Documents(picks))
    ensures |picks| == 0 <==> Lookup(index, kw1) == [] && Lookup(index, kw2) == []
    ensures forall i :: 0 <= i < |picks| ==> picks[i] in Lookup(index, kw1) || picks[i] in Lookup(index, kw2)
  {
    MergeFromStart(Lookup(index, kw1), Lookup(index, kw2));
    MergeTop(Lookup(index, kw1), Lookup(index, kw2), Start)
  }

  /** The names of at most five documents in which `kw1` or `kw2` occurs, or `None`
      when neither keyword is in the index or no document is found. */
  function Top5Search(index: map<string, seq<Occurrence>>, kw1: string, kw2: string): (r: Option<seq<string>>)
    ensures kw1 !in index && kw2 !in index ==> r == None
    ensures r.None? <==> Lookup(index, kw1) == [] && Lookup(index, kw2) == []
    ensures r.Some? ==> 1 <= |r.value| <= Limit && DistinctNames(r.value)
    ensures r.Some? ==> forall i :: 0 <= i < |r.value| ==>
              r.value[i] in Documents(Lookup(index, kw1)) || r.value[i] in Documents(Lookup(index, kw2))
  {
    if kw1 !in index && kw2 !in index then None
    else
      var picks := Top5Picks(index, kw1, kw2);
      if |picks| == 0 then None
      else
        assert forall i :: 0 <= i < |picks| ==>
          picks[i].document in Documents(Lookup(index, kw1)) || picks[i].document in Documents(Lookup(index, kw2))
        by {
          forall i | 0 <= i < |picks|
            ensures picks[i].document in Documents(Lookup(index, kw1)) || picks[i].document in Documents(Lookup(index, kw2))
          {
            if picks[i] in Lookup(index, kw1) {
              DocumentOfMember(Lookup(index, kw1), picks[i]);
            } else {
              DocumentOfMember(Lookup(index, kw2), picks[i]);
            }
          }
        }
        Some(Documents(picks))
  }

  /** With both lists sorted, the names are reported in non-increasing order of the
      frequencies of the occurrences that contributed them. */
  lemma Top5Ordered(index: map<string, seq<Occurrence>>, kw1: string, kw2: string)
    requires Sorted(Lookup(index, kw1)) && Sorted(Lookup(index, kw2))
    ensures var r := Top5Search(index, kw1, kw2); var picks := Top5Picks(index, kw1, kw2);
      r.Some? ==> r.value == Documents(picks) && Sorted(picks)
  {
    MergeTopSorted(Lookup(index, kw1), Lookup(index, kw2), Start);
  }

  /** A query that reports fewer than five names reports every document of both lists. */
  lemma Top5Complete(index: map<string, seq<Occurrence>>, kw1: string, kw2: string)
    ensures var r := Top5Search(index, kw1, kw2);
      r.Some? && |r.value| < Limit ==>
        && (forall o :: o in Lookup(index, kw1) ==> o.document in r.value)
        && (forall o :: o in Lookup(index, kw2) ==> o.document in r.value)
  {
    var a, b := Lookup(index, kw1), Lookup(index, kw2);
    MergeTopComplete(a, b, Start);
  }

  /** With both lists sorted, an occurrence whose document is not reported was left out
      of a full report and is no more frequent than the occurrence reported last. */
  lemma Top5Best(index: map<string, seq<Occurrence>>, kw1: string, kw2: string, o: Occurrence)
    requires Sorted(Lookup(index, kw1)) && Sorted(Lookup(index, kw2))
    requires o in Lookup(index, kw1) || o in Lookup(index, kw2)
    ensures var r := Top5Search(index, kw1, kw2); var picks := Top5Picks(index, kw1, kw2);
      && r.Some?
      && (o.document !in r.value ==> |r.value| == Limit && o.frequency <= Last(picks).frequency)
  {
    var a, b := Lookup(index, kw1), Lookup(index, kw2);
    MergeTopBest(a, b, Start);
  }

  /** When the first entries of both lists have equal frequency and different documents,
      the document of `kw1`'s list is reported first and that of `kw2`'s second. */
  lemma Top5TieBreak(index: map<string, seq<Occurrence>>, kw1: string, kw2: string)
    requires |Lookup(index, kw1)| > 0 && |Lookup(index, kw2)| > 0
    requires Lookup(index, kw1)[0].frequency == Lookup(index, kw2)[0].frequency
    requires Lookup(index, kw1)[0].document != Lookup(index, kw2)[0].document
    ensures var r := Top5Search(index, kw1, kw2);
      r.Some? && |r.value| >= 2 &&
      r.value[0] == Lookup(index, kw1)[0].document && r.value[1] == Lookup(index, kw2)[0].document
  {
    var a, b := Lookup(index, kw1), Lookup(index, kw2);
    StepTieBreak(a, b, Start);
    var d := Step(a, b, Start);
    assert MergeTop(a, b, Start) == MergeTop(a, b, d);
  }
}

=== FILE: wrappers.dfy ===
/** Option stands for the Java `null` / non-null convention of the search engine:
    `None` is a `null` return, `Some(v)` a real value. */
module Wrappers {

  datatype Option<+T> = None | Some(value: T)
}
